=== FILE: README.md ===
# Pong game step in Dafny

This project models the per-frame game-state update of a browser Pong game.
The game exists in two near-identical variants, `js/pingPong3.js` and
`js/pingPong2.js`. Each frame the game runs these steps in order:

1. The scoring check. A point resets the ball to the centre line.
2. The ball flies one frame, and its new position is pushed onto a seven-entry trail.
3. The opponent paddle closes a fixed fraction of the gap to the ball.
4. The ball bounces off the top and bottom walls.
5. The player's paddle moves. Only pingPong3 does this step.
6. The ball rebounds off a paddle, and its speed ramps up to a cap.
7. An active power-up expires. pingPong2 runs this step before step 6.

The game state is an immutable record, and one frame is a pure `Step`
function. The outside world comes in as parameters:

- `now` stands for `Date.now()`.
- `Draws` holds the `Math.random()` values the frame uses.
- `Keys` holds the two held-key flags.
- `Field` holds the canvas width and height.
- `Trig` holds `Math.cos` and `Math.sin`.

`Step` returns `Running(game)` when the frame completes. It returns
`Frozen(game)` when `update` throws. After a throw `render` is never reached,
so the next animation frame is never requested.

Files:

- `pong.dfy` (module `Pong`) holds the logic the two files share:
  - the entities and constants;
  - `collision` and `resetBall`;
  - the trail, the opponent tracker, the wall bounce, the paddle rebound and the speed ramp;
  - the random pick used by `generateRandomPowerUp`.

  The two copies are not identical. The tracker multiplies by the constant
  `0.05` in pingPong3 (`js/pingPong3.js:222`) and by the selected level's
  `comSpeed` in pingPong2 (`js/pingPong2.js:232`), so `TrackOpponent` takes the
  coefficient as a parameter. pingPong3's rebound also plays a sound
  (`js/pingPong3.js:249`), which does not touch the game state.

  The rows for this shared code cite one copy each, mostly pingPong3's.
  pingPong2's copy sits at `js/pingPong2.js:192-204`, `:222-236`, `:243-255`
  and `:286-289`; pingPong3's at `js/pingPong3.js:177-189`, `:212-226`,
  `:236-250` and `:292-295`.
- `ping_pong3.dfy` (module `PingPong3`) covers the pingPong3 variant:
  - the power-up enlarges the opponent's paddle whenever a scorer leads by three or more;
  - held keys move the player's paddle;
  - a player point freezes the game (see below).
- `ping_pong2.dfy` (module `PingPong2`) covers the pingPong2 variant:
  - the canvas-size fit and the difficulty table;
  - the power-up enlarges the player's own paddle on every third player point;
  - the player's paddle never moves (see below).

Two behaviours of the code are modelled as written:

- **pingPong3 freezes on the first player point.** After a player point,
  `update` increments `userScoreForPowerUp` (`js/pingPong3.js:202`), which that
  file never declares. The resulting error ends the frame after several steps
  have already run: the score increment, the power-up check and the ball reset.
  `Step` returns `Frozen` there. `FreezesOnFirstPlayerPoint` proves that over
  any run of frames the player's score rises at most once, and only in a
  frozen game.
- **pingPong2's player paddle never moves.** The file declares `update` twice
  (lines 88 and 206), and the later declaration wins. Only the later one is
  modelled. It accepts the keys and never reads them (`UserPaddleNeverMoves`).

Three behaviours of the code are easy to mistake for something else, and
the model keeps them as the code has them:

- The player paddle is not clamped to `[0, height − paddleHeight]`. Each move
  is only guarded by a test on the current position, so a paddle can end up
  one step (8 pixels) past an edge. `MoveUserStaysInBand` proves that band.
- An unknown difficulty name is not rejected when it is chosen. `find` then
  yields `undefined`, and the frame throws later, when `update` reads
  `currentDifficulty.comSpeed` (`js/pingPong2.js:232`). `Step` returns
  `Frozen` there. This happens after the scoring check, the flight and the
  trail push.
- A zero-sized screen is not rejected. `CalculateCanvasSize` gives a 0×0 field.

## Model

| member | source | states |
|---|---|---|
| `Pong.CollidesIffBoxesOverlap` | js/pingPong3.js:177-181 | the four strict comparisons hold exactly when the open bounding square of the ball and the open paddle rectangle share a point |
| `Pong.Collides` | js/pingPong3.js:177-181 | `collision`: the ball's bounding square and the paddle's rectangle overlap, with all four comparisons strict (its meaning is stated by the two lemmas around it) |
| `Pong.EdgeContactIsNoHit` | js/pingPong2.js:192-196 | a ball whose edge only touches a paddle edge (`b.x + r == p.x` and the like) does not collide |
| `Pong.ResetBall` | js/pingPong3.js:183-189 | the ball goes to `x = width/2` with `velocityX` negated, `velocityY` kept and speed 5; for `r` in [0,1) and a field taller than the ball, `y` lands in `[radius, height − radius)`; the radius and everything else are kept |
| `Pong.ResetBallIsAffine` | js/pingPong3.js:185 | the reset `y` is `radius` for a draw of 0 and moves by `(height − 2·radius)` per unit of draw, so a larger draw puts the ball strictly lower on a field taller than the ball |
| `Pong.ResetBallReachesEveryHeight` | js/pingPong3.js:185 | every `y` in `[radius, height − radius)` is the reset height for some draw in [0,1), namely `(y − radius) / (height − 2·radius)` |
| `Pong.PushTrail` | js/pingPong3.js:215-220 | the new position ends the trail; the result is a suffix of old trail + new position; nothing is dropped below seven entries; at most seven entries are kept |
| `Pong.TrailIsRecentWindow` | js/pingPong2.js:225-230 | after any run of pushes the trail is exactly the last `min(n, 7)` positions pushed, oldest first (first in, first out) |
| `Pong.TrackOpponent` | js/pingPong3.js:222 | only the opponent's `y` changes, and the new centre-to-ball gap is `(1 − k)` times the old one |
| `Pong.TrackingNeverOvershoots` | js/pingPong2.js:232 | for a coefficient in (0,1) the paddle centre moves strictly toward the ball and stops strictly short of it; a centred paddle stays put |
| `Pong.TrackIgnoresScore` | js/pingPong3.js:222 | the tracker reads the paddle's position and height only, so a paddle that differs only in its score is moved the same way |
| `Pong.Integrate` | js/pingPong3.js:212-213 | the ball moves by exactly its velocity in one frame, and nothing else about it changes |
| `Pong.BounceWalls` | js/pingPong3.js:224-226 | `velocityY` is negated exactly when the ball pokes through the top or bottom, and nothing else changes; the position is never corrected |
| `Pong.BounceTurnsBallBack` | js/pingPong3.js:224-226 | a ball moving out through the top or the bottom is turned back into the field; two checks at the same position cancel, so a ball still outside on the next frame is turned around again |
| `Pong.RampSpeed` | js/pingPong3.js:244-247 | the speed rises by exactly 0.2 while that stays within 40, and is 40 otherwise; it never exceeds 40 and never falls from a value at most 40 |
| `Pong.HitAngleFollowsHitPoint` | js/pingPong3.js:238-239 | the rebound angle is 0 for a hit at the paddle's centre, positive exactly below it and negative exactly above it, −π/4 at the paddle's top edge and π/4 at its bottom edge, and within ±π/4 while the ball's centre is level with the paddle |
| `Pong.HitAngleIsLinear` | js/pingPong3.js:238-239 | the angle is linear in the hit point: two hits differing by `d` in `y` differ in angle by `(π/2) · d / height` |
| `Pong.Deflect` | js/pingPong3.js:238-244 | a hit keeps the position, sets the velocity to the pre-ramp speed times `(direction·cos θ, sin θ)` at the hit angle, and ramps the speed |
| `Pong.Rebound` | js/pingPong3.js:236-250 | the user's paddle is the one checked for a hit when the ball's right edge is on the left half (rebound direction +1), otherwise the opponent's (−1); without a collision nothing changes; a speed in [5,40] stays in [5,40] and does not decrease |
| `Pong.DeflectKeepsMagnitude` | js/pingPong3.js:238-242 | given `cos² + sin² = 1` at the hit angle, the rebound velocity has the magnitude of the speed before the ramp |
| `Pong.RandomIndex` | js/pingPong3.js:293 | `floor(r · n)` for `r` in [0,1) is a valid index into an `n`-entry table |
| `Pong.PickPowerUp` | js/pingPong3.js:292-295 | the pick is always an entry of the power-up table |
| `PingPong3.InitialGame` | js/pingPong3.js:62-67 | the starting state: both paddles 18 wide and 120 high, the player at x = 0 and the opponent at x = width − 18 (flush with the right edge), both centred on the field's mid-height; scores 0; a 10-pixel ball at the field's centre with velocity (5, 5) and speed 5; an empty trail; no power-up |
| `PingPong3.ActivatePowerUp` | js/pingPong3.js:113-128 | the power-up becomes active with start `now`; the opponent's paddle height changes exactly when the power-up is the enlarging one and the height is 120, and then becomes 240; nothing else changes |
| `PingPong3.DeactivatePowerUp` | js/pingPong3.js:130-136 | the power-up becomes inactive and the opponent's height becomes 120 unconditionally; nothing else changes |
| `PingPong3.ActivationIsIdempotent` | js/pingPong3.js:119-125 | activating twice gives the same game as activating once at the later time, so the paddle is never quadrupled |
| `PingPong3.DeactivationUndoesActivation` | js/pingPong3.js:113-136 | deactivating after an activation gives the same game as deactivating without it |
| `PingPong3.GenerateRandomPowerUp` | js/pingPong3.js:106-108 | every draw in [0,1) yields the one table entry, `EnlargeOpponentPaddle` |
| `PingPong3.CheckPowerUpActivation` | js/pingPong3.js:258-262 | the power-up fires, started at `now`, exactly when the score difference is at least 3; otherwise the game is unchanged |
| `PingPong3.ExpirePowerUp` | js/pingPong3.js:252-255 | a power-up survives exactly while it is active and `now − start <= 5000` (expiry is strict); an expiry is a full deactivation; otherwise nothing changes |
| `PingPong3.MoveUser` | js/pingPong3.js:228-234 | only `y` changes, by −8, 0 or +8; with `w` alone held the paddle moves up exactly when `y > 0`; with `s` alone held it moves down exactly when `y < height − paddle height`; with no key held it stays put |
| `PingPong3.MoveUserStaysInBand` | js/pingPong3.js:229-234 | the band `(−8, height − paddle height + 8)` is kept from frame to frame, and a paddle at or past an edge never moves further out |
| `PingPong3.BothKeysMoveInTurn` | js/pingPong3.js:229-234 | with both keys held the `w` move happens first and the `s` test sees its result, so a paddle clear of both edges ends where it started |
| `PingPong3.Advance` | js/pingPong3.js:212-255 | the rest of the frame keeps both scores and the player's height; the opponent's height stays or returns to 120; a speed in [5,40] stays in [5,40] and does not decrease |
| `PingPong3.AdvanceFliesThenTracks` | js/pingPong3.js:212-234 | the ball moves by its velocity; the trail gets that new position; the opponent is the tracker's result for the new ball `y` with coefficient 0.05, so its centre-to-ball gap shrinks to 0.95 of the old one; the keys move the player |
| `PingPong3.AdvanceExpiresLast` | js/pingPong3.js:252-255 | the power-up survives exactly while at most 5000 ms have passed, and the opponent's height changes only by an expiry, back to 120 |
| `PingPong3.AdvanceRebounds` | js/pingPong3.js:224-250 | the rebound sees the ball after flight and wall bounce, the moved player and the opponent before expiry; without a hit the ball keeps the bounced velocity, with one it is deflected off the paddle of its half |
| `PingPong3.Restart` | js/pingPong3.js:183-189 | after a point the ball is exactly `resetBall`'s: at `width/2` with speed 5, `velocityX` negated and the random `y`, radius kept; the trail is empty, and nothing else changes |
| `PingPong3.ScorePoint` | js/pingPong3.js:192-201 | the scorer's score rises by 1; the power-up fires on the scorer's own lead (opponent minus player on an opponent point), enlarging a 120 opponent paddle to 240, and otherwise the power-up and heights stay; the ball is reset and the trail emptied |
| `PingPong3.Step` | js/pingPong3.js:191-210 | the frame ends `Frozen` exactly when the player scores, i.e. the ball's left edge is not past the left wall and its right edge is past the right wall; the paddle heights stay usable as divisors |
| `PingPong3.StepScoresAtMostOnce` | js/pingPong3.js:192-201 | in one frame at most one side scores, and the scorer's counter rises by exactly 1 |
| `PingPong3.StepTracksBall` | js/pingPong3.js:212-234 | in every frame that runs on, with or without an opponent point, the opponent is the tracker's result with coefficient 0.05 for the ball's new `y`, starting from the paddle the scoring check left (after a point the ball flies from its reset position), apart from a height the expiry may reset; the keys move the player |
| `PingPong3.StepFiresPowerUpOnLead` | js/pingPong3.js:192-201 | a point fires the power-up exactly when the scorer then leads by 3 or more; it is active at `now` when the frame ends and has doubled a 120 opponent paddle; otherwise the power-up changes only by the end-of-frame expiry |
| `PingPong3.PointResetsBall` | js/pingPong3.js:192-201 | a player point freezes the game with the ball at `width/2`, speed 5, `velocityX` negated and an empty trail; after an opponent point the trail holds only the ball's new position |
| `PingPong3.StepKeepsTrailBounded` | js/pingPong3.js:216-220 | after a frame the trail has at most 7 entries; in a running frame it ends with the ball's position and keeps the older entries in order |
| `PingPong3.StepKeepsSpeedInRange` | js/pingPong3.js:236-247 | the speed stays in [5, 40], and between points it never decreases |
| `PingPong3.StepKeepsPaddleHeights` | js/pingPong3.js:113-136 | the player's paddle stays at 120 and the opponent's stays at 120 or 240 |
| `PingPong3.FreezesOnFirstPlayerPoint` | js/pingPong3.js:197-209 | a frozen game stays frozen; over any run of frames the player's score rises by at most 1, and a game still running has the same player score |
| `PingPong3.FirstPlayerPointScenario` | js/pingPong3.js:197-202 | a ball at x = 795 on an 800×600 field gives the player 1 point, puts the ball back at x = 400 and freezes the game |
| `PingPong2.InitialGame` | js/pingPong2.js:53-58 | the starting state: both paddles 18 wide and 120 high, the player at x = 0 and the opponent at x = width − 18 (flush with the right edge), both centred on the field's mid-height; scores and counter 0; a 30-pixel ball at the field's centre with velocity (5, 5) and speed 5; an empty trail; no power-up; the "Medium" level (0.03) selected as at line 108 |
| `PingPong2.CalculateCanvasSize` | js/pingPong2.js:24-42 | the result has width = 4/3 · height, fits within the screen, and matches the screen in at least one dimension |
| `PingPong2.CanvasSizeIsFourByThree` | js/pingPong2.js:24-42 | on a screen with positive size the canvas height is positive and width / height = 4/3 |
| `PingPong2.CanvasSizeIsLargest` | js/pingPong2.js:24-42 | every 4:3 rectangle that fits the screen is no wider and no taller than the computed canvas |
| `PingPong2.FindLevel` | js/pingPong2.js:110-112 | the result is the first level with the given name, and there is none exactly when no level has that name |
| `PingPong2.ChangeDifficulty` | js/pingPong2.js:110-112 | the selected level is the first table entry with the given name: "Easy", "Medium" and "Hard" select coefficients 0.01, 0.03 and 0.05, and any other name leaves none; nothing else changes |
| `PingPong2.LevelsByName` | js/pingPong2.js:101-105 | "Easy", "Medium" and "Hard" select coefficients 0.01, 0.03 and 0.05, and any other name selects nothing |
| `PingPong2.LevelCoefficientsAreFractions` | js/pingPong2.js:101-105 | every selectable coefficient lies strictly between 0 and 1, so the tracker shrinks the gap and keeps its sign |
| `PingPong2.ActivatePowerUp` | js/pingPong2.js:128-143 | the power-up becomes active with start `now`; the player's height changes exactly when the power-up is the enlarging one and the height is 120, and then becomes 240; the opponent and everything else are untouched |
| `PingPong2.DeactivatePowerUp` | js/pingPong2.js:145-151 | the power-up becomes inactive and the player's height becomes exactly 120; the opponent and everything else are untouched |
| `PingPong2.ActivationIsIdempotent` | js/pingPong2.js:134-141 | activating twice gives the same game as activating once at the later time, so the paddle is never quadrupled |
| `PingPong2.DeactivationUndoesActivation` | js/pingPong2.js:128-151 | deactivating after an activation gives the same game as deactivating without it |
| `PingPong2.GenerateRandomPowerUp` | js/pingPong2.js:286-289 | every draw in [0,1) yields the one table entry, `EnlargePaddle` |
| `PingPong2.CountPlayerPoint` | js/pingPong2.js:213-219 | the counter goes up by one, unless this makes 3: then it resets to 0 and the enlarging power-up starts at `now` |
| `PingPong2.ExpirePowerUp` | js/pingPong2.js:238-241 | a power-up survives exactly while it is active and `now − start <= 5000` (expiry is strict); an expiry is a full deactivation; otherwise nothing changes |
| `PingPong2.Restart` | js/pingPong2.js:198-204 | after a point the ball is exactly `resetBall`'s: at `width/2` with speed 5, `velocityX` negated and the random `y`, radius kept; the trail is empty, and nothing else changes |
| `PingPong2.Score` | js/pingPong2.js:207-220 | the left wall is checked before the right one; an opponent point leaves the power-up counter alone; a player point moves it as `CountPlayerPoint` says; only the third counted player point changes the power-up or the player's height, and it doubles a 120 player paddle to 240 and leaves any other height; either point resets the ball and empties the trail; without a point nothing changes |
| `PingPong2.Finish` | js/pingPong2.js:234-255 | the scores, the counter, the trail, the ball position, the opponent, the selected level and the player's paddle apart from its height are kept; a speed in [5,40] stays in [5,40] and does not decrease |
| `PingPong2.FinishExpiresThenRebounds` | js/pingPong2.js:234-255 | the power-up and the player's height are what the expiry check leaves; the rebound then sees the bounced ball and that player, and deflects the ball off the paddle of its half on a hit, or keeps the bounced velocity |
| `PingPong2.Fly` | js/pingPong2.js:222-255 | the rest of the frame ends `Frozen` exactly when no difficulty level is selected |
| `PingPong2.FlyThenTrack` | js/pingPong2.js:222-232 | the ball moves by its velocity; the trail gets that new position; with a level selected the opponent is the tracker's result for the new ball `y` with the level's `comSpeed`, so the gap shrinks by that fraction; without one the opponent has not moved |
| `PingPong2.FlyKeepsTally` | js/pingPong2.js:222-255 | the rest of the frame keeps both scores, the power-up counter, the selected level and the player's paddle apart from its height, and a speed in [5,40] stays in [5,40] and does not decrease |
| `PingPong2.Step` | js/pingPong2.js:206-256 | a frame ends `Frozen` exactly when no difficulty level is selected, and the paddle heights stay usable as divisors |
| `PingPong2.StepKeepsLevel` | js/pingPong2.js:206-256 | a frame keeps the selected level and the player's paddle apart from its score and height, so a running frame leaves a level selected |
| `PingPong2.RunsWhileLevelSelected` | js/pingPong2.js:291-294 | over any run of frames the level is unchanged; a running game with a level selected keeps running, and one without a level freezes at its first frame |
| `PingPong2.FlyIgnoresExpiredPowerUp` | js/pingPong2.js:238-255 | once the scoring check is done, a power-up that has run out makes no difference to the rest of the frame |
| `PingPong2.StepCountsPoints` | js/pingPong2.js:207-219 | at most one side scores, by exactly 1; only a player point moves the power-up counter, it moves as `(c + 1) mod 3`, and it stays in [0, 2] |
| `PingPong2.StepTracksBall` | js/pingPong2.js:206-232 | with a level selected the frame runs on, and the opponent is the tracker's result for the ball's new `y` with the level's `comSpeed`, whether or not anyone scored |
| `PingPong2.ThirdPointActivates` | js/pingPong2.js:213-219 | the third counted player point resets the counter to 0, leaves the enlarging power-up active at the end of the frame, and doubles a 120 player paddle to 240 |
| `PingPong2.UserPaddleNeverMoves` | js/pingPong2.js:206-256 | whatever keys are held, the player's paddle keeps its `y` |
| `PingPong2.PointResetsBall` | js/pingPong2.js:207-230 | after a point the ball is at `width/2 − velocityX`: it is reset with `velocityX` negated and then flies one frame; the trail holds only that position |
| `PingPong2.StepKeepsTrailBounded` | js/pingPong2.js:225-230 | after a frame the trail has at most 7 entries and ends with the ball's position; without a point the older entries keep their order |
| `PingPong2.StepKeepsSpeedInRange` | js/pingPong2.js:243-255 | the speed stays in [5, 40], and between points it never decreases |
| `PingPong2.StepKeepsPaddleHeights` | js/pingPong2.js:128-151 | the player's paddle stays at 120 or 240, and the opponent's stays at 120 |
| `PingPong2.ExpiryComesBeforeRebound` | js/pingPong2.js:238-255 | a frame in which the power-up runs out equals the same frame with the power-up already switched off, so a hit in that frame uses height 120 |

## Left out

- Drawing (`drawRect`, `drawCircle`, `drawText`, `drawNet`, `render`), the resize listener and the element styling: these are presentation only. The colours in the power-up table are kept only as data.
- Audio (`playSound` and the `Audio` objects in pingPong3): fire-and-forget calls with no effect on the game state, so they are omitted.
- The keyboard handlers: only their effect is modelled, as the two flags in `Keys`.
- `requestAnimationFrame` and `gameLoop`: they only schedule frames. `PingPong3.Run` and `PingPong2.Run` keep the one thing that matters, that a frame which throws ends the loop. `Run` carries no contract of its own; `FreezesOnFirstPlayerPoint` and `RunsWhileLevelSelected` state its property.
- Floating point. Positions and speeds are exact `real`s. Three consequences:
  - `maxCanvasWidth / maxCanvasHeight` is exactly 4/3, not its double.
  - `Math.cos` and `Math.sin` are uninterpreted parameters.
  - `Math.PI` is 3.141592653589793, the shortest decimal that reads back as that double; the double itself is 3.14159265358979311599…
- The canvas turns an assigned size into an integer. That is DOM behaviour, so `Step` takes the field size as given.
- `Date.now()` and `Math.random()` are parameters.
  - A frame's random values are a pair of draws named by their consumer: `resetBall` and `generateRandomPowerUp`. In the code, which call comes first depends on the variant and on whether a power-up fires. Each call still gets its own independent value.
  - The draws are required to lie in [0,1), the range of `Math.random()`.
  - One `now` per frame stands for both `Date.now()` calls of the frame: the activation start (`js/pingPong3.js:115`, `js/pingPong2.js:130`) and the expiry test (`js/pingPong3.js:253`, `js/pingPong2.js:239`). The few milliseconds that can pass between the two calls are not modelled, so a power-up that fires in a frame is never expired in that same frame.
- `powerUpActive`, `powerUpStart` and `activePowerUp` are one `PowerUpState` value. The start time of an inactive power-up is never read, so it is not kept.
- The first, shadowed `update` of pingPong2 (`js/pingPong2.js:88-98`) is dead code and is not modelled.
- pingPong3's `calculateCanvasSize` is the same as pingPong2's. It is modelled once, as `PingPong2.CalculateCanvasSize`.
- pingPong3's unused `userLead` and `opponentLead` are not modelled.
- pingPong3 has no difficulty table. Its tracking coefficient is the constant 0.05.
- `Pong.DeflectKeepsMagnitude`: it takes `cos² + sin² = 1` at the hit angle as an assumption, because the trigonometric functions are not interpreted.
- `Pong.ResetBall`: the bound on `y` is stated only for a field taller than the ball. On a smaller field `Math.random()` gives no bound.
- `PingPong2.CalculateCanvasSize`: it requires non-negative screen sizes, the only sizes a browser reports. For such sizes its multiplied-out comparison picks the same branch as the source's division.

=== FILE: ping_pong2.dfy ===
/**
  The game step of `js/pingPong2.js`: a 30-pixel ball, an opponent whose
  tracking coefficient comes from the selected difficulty, and a power-up
  that doubles the player's own paddle on every third player point.

  The file declares `update` twice; the later declaration replaces the
  earlier one, and only the later one (the scoring and physics step) is
  modelled. That step never reads the keyboard, so the player's paddle never
  moves.
 */
module PingPong2 {
  import opened Pong

  const BallRadius: real := 30.0
  /** Player points needed for a power-up. */
  const PointsPerPowerUp: int := 3
  /** `maxCanvasWidth / maxCanvasHeight`. */
  const AspectRatio: real := 800.0 / 600.0

  datatype Difficulty = Difficulty(name: string, comSpeed: real)

  const DifficultyLevels: seq<Difficulty> :=
    [Difficulty("Easy", 0.01), Difficulty("Medium", 0.03), Difficulty("Hard", 0.05)]

  const EnlargePaddle: PowerUp := PowerUp("EnlargePaddle", "blue")
  const PowerUpTypes: seq<PowerUp> := [EnlargePaddle]

  /** `currentDifficulty` is `None` once `changeDifficulty` was given an unknown
      name (the JavaScript value is then `undefined`). */
  datatype Game = Game(
    user: Paddle,
    com: Paddle,
    ball: Ball,
    trail: seq<Point>,
    powerUp: PowerUpState,
    userScoreForPowerUp: int,
    currentDifficulty: Option<Difficulty>)

  /** Both paddle heights are usable as divisors in the rebound angle. */
  predicate Playable(g: Game) {
    g.user.height != 0.0 && g.com.height != 0.0
  }

  /** The state the script sets up on load, for a canvas of the given size:
      both paddles centred vertically on their sides, the ball in the middle,
      the "Medium" level selected. */
  function InitialGame(f: Field): (g: Game)
    ensures Playable(g) && g.trail == [] && g.powerUp == Inactive
    ensures g.user.height == PaddleHeight && g.com.height == PaddleHeight
    ensures Centre(g.user) == f.height / 2.0 && Centre(g.com) == f.height / 2.0
    ensures g.com.x + g.com.width == f.width
    ensures g.user.score == 0 && g.com.score == 0 && g.userScoreForPowerUp == 0
    ensures InitialBallSpeed <= g.ball.speed <= MaxBallSpeed
    ensures g.currentDifficulty == Some(Difficulty("Medium", 0.03))
    ensures g.user.x == 0.0
    ensures g.user.width == PaddleWidth && g.com.width == PaddleWidth
    ensures g.ball == Ball(f.width / 2.0, f.height / 2.0, BallRadius,
                           InitialBallSpeed, InitialBallSpeed, InitialBallSpeed)
  {
    var y := f.height / 2.0 - PaddleHeight / 2.0;
    Game(
      Paddle(0.0, y, PaddleWidth, PaddleHeight, 0),
      Paddle(f.width - PaddleWidth, y, PaddleWidth, PaddleHeight, 0),
      Ball(f.width / 2.0, f.height / 2.0, BallRadius, InitialBallSpeed, InitialBallSpeed, InitialBallSpeed),
      [],
      Inactive,
      0,
      Some(DifficultyLevels[1]))
  }

  // ---------------------------------------------------------------------------
  // Canvas size

  /** The largest 800:600 rectangle that fits the screen. The test is the
      source's `screenWidth / screenHeight > aspectRatio` with the division
      multiplied out; for non-negative sizes it picks the same branch, a zero
      height included (where JavaScript divides to Infinity or NaN). */
  function CalculateCanvasSize(screenWidth: real, screenHeight: real): (size: Field)
    requires screenWidth >= 0.0 && screenHeight >= 0.0
    ensures size.width == AspectRatio * size.height
    ensures size.width <= screenWidth && size.height <= screenHeight
    ensures size.width == screenWidth || size.height == screenHeight
  {
    if screenWidth > AspectRatio * screenHeight then
      Field(screenHeight * AspectRatio, screenHeight)
    else
      Field(screenWidth, screenWidth / AspectRatio)
  }

  /** On a real screen the canvas has the 4:3 shape and is never degenerate. */
  lemma CanvasSizeIsFourByThree(screenWidth: real, screenHeight: real)
    requires screenWidth > 0.0 && screenHeight > 0.0
    ensures var size := CalculateCanvasSize(screenWidth, screenHeight);
      size.height > 0.0 && size.width / size.height == 4.0 / 3.0
  {
  }

  /** Any 4:3 rectangle that fits the screen is no larger than the computed one. */
  lemma CanvasSizeIsLargest(screenWidth: real, screenHeight: real, other: Field)
    requires screenWidth >= 0.0 && screenHeight >= 0.0
    requires other.width == AspectRatio * other.height
    requires other.width <= screenWidth && other.height <= screenHeight
    ensures other.height <= CalculateCanvasSize(screenWidth, screenHeight).height
    ensures other.width <= CalculateCanvasSize(screenWidth, screenHeight).width
  {
  }

  // ---------------------------------------------------------------------------
  // Difficulty

  /** `Array.prototype.find` by name: the first level with that name, if any. */
  function FindLevel(levels: seq<Difficulty>, name: string): (found: Option<Difficulty>)
    ensures found.Some? ==> found.value in levels && found.value.name == name
    ensures found.None? <==> forall i :: 0 <= i < |levels| ==> levels[i].name != name
    ensures found.Some? ==>
              exists i :: 0 <= i < |levels| && levels[i] == found.value &&
                forall j :: 0 <= j < i ==> levels[j].name != name
  {
    if |levels| == 0 then None
    else if levels[0].name == name then Some(levels[0])
    else
      var rest := FindLevel(levels[1..], name);
      if rest.Some? then
        ghost var i :| 0 <= i < |levels[1..]| && levels[1..][i] == rest.value &&
          forall j :: 0 <= j < i ==> levels[1..][j].name != name;
        assert levels[i + 1] == rest.value;
        assert forall j :: 0 <= j < i + 1 ==> levels[j].name != name by {
          forall j | 0 <= j < i + 1 ensures levels[j].name != name {
            if j > 0 { assert levels[j] == levels[1..][j - 1]; }
          }
        }
        rest
      else
        assert forall i :: 0 <= i < |levels| ==> levels[i].name != name by {
          forall i | 0 <= i < |levels| ensures levels[i].name != name {
            if i > 0 { assert levels[i] == levels[1..][i - 1]; }
          }
        }
        rest
  }

  /** `changeDifficulty`: select a level by name; an unknown name leaves no level. */
  function ChangeDifficulty(g: Game, difficulty: string): (g': Game)
    ensures g' == g.(currentDifficulty := g'.currentDifficulty)
    ensures g'.currentDifficulty.Some? <==> difficulty in ["Easy", "Medium", "Hard"]
    ensures g'.currentDifficulty == FindLevel(DifficultyLevels, difficulty)
    ensures difficulty == "Easy" ==> g'.currentDifficulty == Some(Difficulty("Easy", 0.01))
    ensures difficulty == "Medium" ==> g'.currentDifficulty == Some(Difficulty("Medium", 0.03))
    ensures difficulty == "Hard" ==> g'.currentDifficulty == Some(Difficulty("Hard", 0.05))
  {
    LevelsByName(difficulty);
    g.(currentDifficulty := FindLevel(DifficultyLevels, difficulty))
  }

  /** The three levels and their tracking coefficients. */
  lemma LevelsByName(name: string)
    ensures name == "Easy" ==> FindLevel(DifficultyLevels, name) == Some(Difficulty("Easy", 0.01))
    ensures name == "Medium" ==> FindLevel(DifficultyLevels, name) == Some(Difficulty("Medium", 0.03))
    ensures name == "Hard" ==> FindLevel(DifficultyLevels, name) == Some(Difficulty("Hard", 0.05))
    ensures name !in ["Easy", "Medium", "Hard"] ==> FindLevel(DifficultyLevels, name) == None
  {
  }

  /** Every selectable level makes the opponent close a fraction strictly
      between 0 and 1 of the gap, so it never overshoots the ball. */
  lemma LevelCoefficientsAreFractions(name: string)
    ensures var found := FindLevel(DifficultyLevels, name);
      found.Some? ==> 0.0 < found.value.comSpeed < 1.0
  {
  }

  // ---------------------------------------------------------------------------
  // Power-ups

  /** Start the power-up at `now`; enlarging doubles the player's paddle only
      from the base height, and never touches the opponent. */
  function ActivatePowerUp(g: Game, p: PowerUp, now: int): (g': Game)
    ensures g'.powerUp == Active(p, now)
    ensures g'.com == g.com && g'.ball == g.ball && g'.trail == g.trail
    ensures g'.userScoreForPowerUp == g.userScoreForPowerUp
    ensures g'.currentDifficulty == g.currentDifficulty
    ensures g'.user == g.user.(height := g'.user.height)
    ensures g'.user.height != g.user.height <==>
              p.name == EnlargePaddle.name && g.user.height == PaddleHeight
    ensures g'.user.height != g.user.height ==> g'.user.height == 2.0 * PaddleHeight
  {
    var user :=
      if p.name == "EnlargePaddle" && g.user.height == PaddleHeight
      then g.user.(height := g.user.height * 2.0)
      else g.user;
    g.(powerUp := Active(p, now), user := user)
  }

  /** End the power-up and put the player's paddle back to the base height,
      whatever it was; the opponent is untouched. */
  function DeactivatePowerUp(g: Game): (g': Game)
    ensures g'.powerUp == Inactive
    ensures g'.user.height == PaddleHeight
    ensures g'.user == g.user.(height := PaddleHeight)
    ensures g'.com == g.com && g'.ball == g.ball && g'.trail == g.trail
    ensures g'.userScoreForPowerUp == g.userScoreForPowerUp
    ensures g'.currentDifficulty == g.currentDifficulty
  {
    g.(powerUp := Inactive, user := g.user.(height := PaddleHeight))
  }

  /** Two activations leave the same game as the later one alone: the paddle
      is never quadrupled. */
  lemma ActivationIsIdempotent(g: Game, p: PowerUp, earlier: int, now: int)
    ensures ActivatePowerUp(ActivatePowerUp(g, p, earlier), p, now) == ActivatePowerUp(g, p, now)
  {
  }

  /** Deactivation undoes any activation completely. */
  lemma DeactivationUndoesActivation(g: Game, p: PowerUp, now: int)
    ensures DeactivatePowerUp(ActivatePowerUp(g, p, now)) == DeactivatePowerUp(g)
  {
  }

  /** `generateRandomPowerUp`: the table has one entry, so every draw picks it. */
  function GenerateRandomPowerUp(r: real): (p: PowerUp)
    requires IsRandom(r)
    ensures p == EnlargePaddle
  {
    PickPowerUp(PowerUpTypes, r)
  }

  /** Count a player point; the third one resets the count and fires a power-up. */
  function CountPlayerPoint(g: Game, now: int, r: real): (g': Game)
    requires IsRandom(r)
    ensures g.userScoreForPowerUp + 1 == PointsPerPowerUp ==>
              g' == ActivatePowerUp(g.(userScoreForPowerUp := 0), EnlargePaddle, now)
    ensures g.userScoreForPowerUp + 1 != PointsPerPowerUp ==>
              g' == g.(userScoreForPowerUp := g.userScoreForPowerUp + 1)
  {
    var counted := g.(userScoreForPowerUp := g.userScoreForPowerUp + 1);
    if counted.userScoreForPowerUp == PointsPerPowerUp then
      ActivatePowerUp(counted.(userScoreForPowerUp := 0), GenerateRandomPowerUp(r), now)
    else
      counted
  }

  /** The expiry check: an active power-up survives while at most 5000 ms have
      passed since it started, and is deactivated once strictly more have. */
  function ExpirePowerUp(g: Game, now: int): (g': Game)
    ensures g'.powerUp.Active? <==> g.powerUp.Active? && now - g.powerUp.start <= PowerUpDuration
    ensures g'.powerUp.Active? || g.powerUp.Inactive? ==> g' == g
    ensures g'.powerUp != g.powerUp ==> g' == DeactivatePowerUp(g)
  {
    if g.powerUp.Active? && now - g.powerUp.start > PowerUpDuration then DeactivatePowerUp(g) else g
  }

  // ---------------------------------------------------------------------------
  // The frame

  /** After a point: the ball goes back to the centre line at the initial
      speed, heading the other way, and the trail is emptied. */
  function Restart(g: Game, f: Field, r: real): (g': Game)
    ensures g' == g.(ball := g'.ball, trail := [])
    ensures g'.ball == ResetBall(g.ball, f, r)
    ensures g'.ball.x == f.width / 2.0 && g'.ball.speed == InitialBallSpeed
    ensures g'.ball.velocityX == -g.ball.velocityX && g'.ball.velocityY == g.ball.velocityY
  {
    g.(ball := ResetBall(g.ball, f, r), trail := [])
  }

  /** The scoring check at the top of `update`: the left wall first, then the right. */
  function Score(g: Game, now: int, draws: Draws, f: Field): (g': Game)
    requires Playable(g) && DrawsInRange(draws)
    ensures Playable(g')
    ensures g'.com == g.com.(score := g'.com.score)
    ensures g'.user == g.user.(score := g'.user.score, height := g'.user.height)
    ensures g'.currentDifficulty == g.currentDifficulty
    ensures var comScores := g.ball.x - g.ball.radius < 0.0;
      var userScores := !comScores && g.ball.x + g.ball.radius > f.width;
      && g'.com.score == (if comScores then g.com.score + 1 else g.com.score)
      && g'.user.score == (if userScores then g.user.score + 1 else g.user.score)
      && (!userScores ==> g'.userScoreForPowerUp == g.userScoreForPowerUp)
      && (userScores ==>
            g'.userScoreForPowerUp ==
              (if g.userScoreForPowerUp + 1 == PointsPerPowerUp then 0 else g.userScoreForPowerUp + 1))
      && (userScores && g.userScoreForPowerUp + 1 == PointsPerPowerUp ==> g'.powerUp == Active(EnlargePaddle, now))
      && (comScores || userScores ==> g'.trail == [] && g'.ball == ResetBall(g.ball, f, draws.reset))
      && (!comScores && !userScores ==> g' == g)
      && (!(userScores && g.userScoreForPowerUp + 1 == PointsPerPowerUp) ==>
            g'.powerUp == g.powerUp && g'.user.height == g.user.height)
      && (userScores && g.userScoreForPowerUp + 1 == PointsPerPowerUp ==>
            g'.user.height == (if g.user.height == PaddleHeight then 2.0 * PaddleHeight else g.user.height))
  {
    if g.ball.x - g.ball.radius < 0.0 then
      Restart(g.(com := g.com.(score := g.com.score + 1)), f, draws.reset)
    else if g.ball.x + g.ball.radius > f.width then
      var scored := Restart(g.(user := g.user.(score := g.user.score + 1)), f, draws.reset);
      CountPlayerPoint(scored, now, draws.powerUp)
    else
      g
  }

  /** What follows the opponent tracking: wall bounce, power-up expiry, and
      then the paddle rebound, which sees the paddle heights after expiry. */
  function Finish(g: Game, now: int, f: Field, t: Trig): (g': Game)
    requires Playable(g)
    ensures Playable(g')
    ensures g'.user.score == g.user.score && g'.com.score == g.com.score
    ensures g'.user.y == g.user.y && g'.com == g.com
    ensures g'.user == g.user.(height := g'.user.height) && g'.currentDifficulty == g.currentDifficulty
    ensures g'.trail == g.trail && g'.userScoreForPowerUp == g.userScoreForPowerUp
    ensures g'.ball.x == g.ball.x && g'.ball.y == g.ball.y
    ensures InitialBallSpeed <= g.ball.speed <= MaxBallSpeed ==>
              g.ball.speed <= g'.ball.speed <= MaxBallSpeed
  {
    var bounced := g.(ball := BounceWalls(g.ball, f));
    var expired := ExpirePowerUp(bounced, now);
    expired.(ball := Rebound(expired.ball, expired.user, expired.com, f, t))
  }

  /** The power-up state and the player's height are what the expiry check
      leaves; the rebound then sees the bounced ball and that player paddle,
      and deflects the ball off the paddle of its half on a hit. */
  lemma FinishExpiresThenRebounds(g: Game, now: int, f: Field, t: Trig)
    requires Playable(g)
    ensures var g' := Finish(g, now, f, t);
      var bounced := BounceWalls(g.ball, f);
      var player := if OnLeftHalf(bounced, f) then g'.user else g.com;
      && g'.powerUp == ExpirePowerUp(g, now).powerUp
      && g'.user.height == ExpirePowerUp(g, now).user.height
      && player.height != 0.0
      && (!Collides(bounced, player) ==> g'.ball == bounced)
      && (Collides(bounced, player) ==>
            g'.ball == Deflect(bounced, player, if OnLeftHalf(bounced, f) then 1.0 else -1.0, t))
  {
  }

  /** One call of the later `update`. The held keys are accepted and ignored.
      With no difficulty level selected, reading its coefficient throws after
      the scoring check, the flight and the trail push, and the game freezes. */
  function Step(g: Game, now: int, draws: Draws, keys: Keys, f: Field, t: Trig): (o: Outcome<Game>)
    requires Playable(g) && DrawsInRange(draws)
    ensures Playable(o.game)
    ensures o.Frozen? <==> g.currentDifficulty.None?
  {
    Fly(Score(g, now, draws, f), now, f, t)
  }

  /** The animation loop: one `Step` per frame until a frame throws. */
  function Run(o: Outcome<Game>, frames: seq<Frame>, t: Trig): Outcome<Game>
    requires Playable(o.game)
    requires forall i :: 0 <= i < |frames| ==> DrawsInRange(frames[i].draws)
    decreases |frames|
  {
    if |frames| == 0 || o.Frozen? then o
    else
      var fr := frames[0];
      Run(Step(o.game, fr.now, fr.draws, fr.keys, fr.field, t), frames[1..], t)
  }

  /** The rest of `update` after the scoring check: flight, trail, opponent
      tracking and `Finish`. */
  function Fly(g: Game, now: int, f: Field, t: Trig): (o: Outcome<Game>)
    requires Playable(g)
    ensures Playable(o.game)
    ensures o.Frozen? <==> g.currentDifficulty.None?
  {
    var moved := g.(ball := Integrate(g.ball));
    var pushed := moved.(trail := PushTrail(moved.trail, Point(moved.ball.x, moved.ball.y)));
    match pushed.currentDifficulty
    case None => Frozen(pushed)
    case Some(level) =>
      var tracked := pushed.(com := TrackOpponent(pushed.com, pushed.ball.y, level.comSpeed));
      Running(Finish(tracked, now, f, t))
  }

  /** The ball flies one frame and the trail records where it got to; then
      the opponent closes the selected level's fraction of the gap to that
      new position. Without a level the frame stops before the opponent moves. */
  lemma FlyThenTrack(g: Game, now: int, f: Field, t: Trig)
    requires Playable(g)
    ensures var o := Fly(g, now, f, t);
      && o.game.ball.x - g.ball.x == g.ball.velocityX && o.game.ball.y - g.ball.y == g.ball.velocityY
      && o.game.trail == PushTrail(g.trail, Point(o.game.ball.x, o.game.ball.y))
      && o.game.com == g.com.(y := o.game.com.y)
      && (o.Running? ==>
            && o.game.com == TrackOpponent(g.com, o.game.ball.y, g.currentDifficulty.value.comSpeed)
            && Centre(o.game.com) - o.game.ball.y ==
                 (1.0 - g.currentDifficulty.value.comSpeed) * (Centre(g.com) - o.game.ball.y))
      && (o.Frozen? ==> o.game.com == g.com && o.game.ball == Integrate(g.ball))
  {
  }

  /** The rest of the frame keeps the scores, the power-up counter, the
      selected level and the player's paddle apart from its height, and a
      speed in [5, 40] stays in range without decreasing. */
  lemma FlyKeepsTally(g: Game, now: int, f: Field, t: Trig)
    requires Playable(g)
    ensures var o := Fly(g, now, f, t);
      && o.game.user.score == g.user.score && o.game.com.score == g.com.score
      && o.game.userScoreForPowerUp == g.userScoreForPowerUp
      && o.game.currentDifficulty == g.currentDifficulty
      && o.game.user == g.user.(height := o.game.user.height)
      && (InitialBallSpeed <= g.ball.speed <= MaxBallSpeed ==>
            g.ball.speed <= o.game.ball.speed <= MaxBallSpeed)
  {
  }

  /** A power-up that has run out by `now` makes no difference to the rest of
      the frame: it is switched off before the paddle rebound reads the height. */
  lemma FlyIgnoresExpiredPowerUp(g: Game, now: int, f: Field, t: Trig)
    requires Playable(g) && g.currentDifficulty.Some?
    requires g.powerUp.Active? && now - g.powerUp.start > PowerUpDuration
    ensures Fly(g, now, f, t) == Fly(DeactivatePowerUp(g), now, f, t)
  {
  }

  // ---------------------------------------------------------------------------
  // Properties of a frame

  /** With a level selected, the opponent is moved by the tracker with the
      level's coefficient toward the ball's new position (so it closes that
      fraction of the gap, as `TrackOpponent` states), whether or not anyone
      scored: a point changes neither the opponent's `y` nor its height. */
  lemma StepTracksBall(g: Game, now: int, draws: Draws, keys: Keys, f: Field, t: Trig)
    requires Playable(g) && DrawsInRange(draws)
    requires g.currentDifficulty.Some?
    ensures var o := Step(g, now, draws, keys, f, t);
      && o.Running?
      && o.game.com ==
           TrackOpponent(g.com, o.game.ball.y, g.currentDifficulty.value.comSpeed).(score := o.game.com.score)
  {
    var scored := Score(g, now, draws, f);
    FlyThenTrack(scored, now, f, t);
    var o := Fly(scored, now, f, t);
    assert scored.com == g.com.(score := scored.com.score);
    assert scored.currentDifficulty == g.currentDifficulty;
    TrackIgnoresScore(g.com, o.game.ball.y, g.currentDifficulty.value.comSpeed, scored.com.score);
  }

  /** A frame never changes the selected level, nor the player's paddle apart
      from its score and height: a frame that runs on leaves a level selected,
      so the next frame runs on too. */
  lemma StepKeepsLevel(g: Game, now: int, draws: Draws, keys: Keys, f: Field, t: Trig)
    requires Playable(g) && DrawsInRange(draws)
    ensures var o := Step(g, now, draws, keys, f, t);
      && o.game.currentDifficulty == g.currentDifficulty
      && o.game.user == g.user.(score := o.game.user.score, height := o.game.user.height)
      && (o.Running? ==> o.game.currentDifficulty.Some?)
  {
    FlyKeepsTally(Score(g, now, draws, f), now, f, t);
  }

  /** The level is never changed by the loop, so a running game with a level
      selected keeps running for any number of frames, and one without a
      level freezes at its first frame. */
  lemma {:induction false} RunsWhileLevelSelected(o: Outcome<Game>, frames: seq<Frame>, t: Trig)
    requires Playable(o.game)
    requires forall i :: 0 <= i < |frames| ==> DrawsInRange(frames[i].draws)
    ensures Run(o, frames, t).game.currentDifficulty == o.game.currentDifficulty
    ensures o.Running? && o.game.currentDifficulty.Some? ==> Run(o, frames, t).Running?
    ensures o.Running? && o.game.currentDifficulty.None? && |frames| > 0 ==> Run(o, frames, t).Frozen?
    decreases |frames|
  {
    if |frames| > 0 && o.Running? {
      var fr := frames[0];
      var next := Step(o.game, fr.now, fr.draws, fr.keys, fr.field, t);
      StepKeepsLevel(o.game, fr.now, fr.draws, fr.keys, fr.field, t);
      assert forall i :: 0 <= i < |frames[1..]| ==> DrawsInRange(frames[1..][i].draws) by {
        forall i | 0 <= i < |frames[1..]| ensures DrawsInRange(frames[1..][i].draws) {
          assert frames[1..][i] == frames[i + 1];
        }
      }
      RunsWhileLevelSelected(next, frames[1..], t);
    }
  }

  /** At most one side scores in a frame, by exactly one point; only a player
      point moves the power-up counter, which stays in [0, 2] between frames. */
  lemma StepCountsPoints(g: Game, now: int, draws: Draws, keys: Keys, f: Field, t: Trig)
    requires Playable(g) && DrawsInRange(draws)
    requires 0 <= g.userScoreForPowerUp < PointsPerPowerUp
    ensures var o := Step(g, now, draws, keys, f, t);
      var comScores := g.ball.x - g.ball.radius < 0.0;
      var userScores := !comScores && g.ball.x + g.ball.radius > f.width;
      && o.game.com.score == (if comScores then g.com.score + 1 else g.com.score)
      && o.game.user.score == (if userScores then g.user.score + 1 else g.user.score)
      && (!userScores ==> o.game.userScoreForPowerUp == g.userScoreForPowerUp)
      && (userScores ==> o.game.userScoreForPowerUp == (g.userScoreForPowerUp + 1) % PointsPerPowerUp)
      && 0 <= o.game.userScoreForPowerUp < PointsPerPowerUp
  {
    CounterWraps(g.userScoreForPowerUp);
  }

  /** The power-up counter counts up to three and starts again at zero. */
  lemma CounterWraps(c: int)
    requires 0 <= c < PointsPerPowerUp
    ensures (c + 1) % PointsPerPowerUp == (if c + 1 == PointsPerPowerUp then 0 else c + 1)
  {
  }

  /** The third player point in a row of counted points fires the power-up,
      which is still active when the frame ends. */
  lemma ThirdPointActivates(g: Game, now: int, draws: Draws, keys: Keys, f: Field, t: Trig)
    requires Playable(g) && DrawsInRange(draws)
    requires !(g.ball.x - g.ball.radius < 0.0) && g.ball.x + g.ball.radius > f.width
    requires g.userScoreForPowerUp == PointsPerPowerUp - 1
    ensures var o := Step(g, now, draws, keys, f, t);
      && o.game.powerUp == Active(EnlargePaddle, now) && o.game.userScoreForPowerUp == 0
      && (g.user.height == PaddleHeight ==> o.game.user.height == 2.0 * PaddleHeight)
  {
  }

  /** The shadowed `update` was the only code that read the keys: the player's
      paddle keeps its vertical position whatever is held. */
  lemma UserPaddleNeverMoves(g: Game, now: int, draws: Draws, keys: Keys, f: Field, t: Trig)
    requires Playable(g) && DrawsInRange(draws)
    ensures Step(g, now, draws, keys, f, t).game.user.y == g.user.y
  {
  }

  /** After a point the ball restarts from the centre line with the initial
      speed, and the trail holds only the position it reached this frame. */
  lemma PointResetsBall(g: Game, now: int, draws: Draws, keys: Keys, f: Field, t: Trig)
    requires Playable(g) && DrawsInRange(draws)
    requires g.ball.x - g.ball.radius < 0.0 || g.ball.x + g.ball.radius > f.width
    ensures var o := Step(g, now, draws, keys, f, t);
      && o.game.ball.x == f.width / 2.0 - g.ball.velocityX
      && o.game.trail == [Point(o.game.ball.x, o.game.ball.y)]
  {
  }

  /** A frame keeps the trail within seven entries, ends it with the ball's
      new position, and keeps the older entries in order. */
  lemma StepKeepsTrailBounded(g: Game, now: int, draws: Draws, keys: Keys, f: Field, t: Trig)
    requires Playable(g) && DrawsInRange(draws)
    requires |g.trail| <= TrailCapacity
    ensures var o := Step(g, now, draws, keys, f, t);
      && |o.game.trail| <= TrailCapacity
      && o.game.trail[|o.game.trail| - 1] == Point(o.game.ball.x, o.game.ball.y)
      && (!(g.ball.x - g.ball.radius < 0.0) && !(g.ball.x + g.ball.radius > f.width) ==>
            IsSuffix(o.game.trail, g.trail + [Point(o.game.ball.x, o.game.ball.y)]))
  {
    FlyThenTrack(Score(g, now, draws, f), now, f, t);
  }

  /** The ball's speed stays between the initial speed and the cap, and
      between points it never decreases. */
  lemma StepKeepsSpeedInRange(g: Game, now: int, draws: Draws, keys: Keys, f: Field, t: Trig)
    requires Playable(g) && DrawsInRange(draws)
    requires InitialBallSpeed <= g.ball.speed <= MaxBallSpeed
    ensures var o := Step(g, now, draws, keys, f, t);
      && InitialBallSpeed <= o.game.ball.speed <= MaxBallSpeed
      && (!(g.ball.x - g.ball.radius < 0.0) && !(g.ball.x + g.ball.radius > f.width) ==>
            g.ball.speed <= o.game.ball.speed)
  {
    var scored := Score(g, now, draws, f);
    assert InitialBallSpeed <= scored.ball.speed <= MaxBallSpeed;
    FlyKeepsTally(scored, now, f, t);
  }

  /** The power-up only ever switches the player's paddle between the base
      height and its double, and leaves the opponent's at the base height. */
  lemma StepKeepsPaddleHeights(g: Game, now: int, draws: Draws, keys: Keys, f: Field, t: Trig)
    requires Playable(g) && DrawsInRange(draws)
    requires g.user.height == PaddleHeight || g.user.height == 2.0 * PaddleHeight
    requires g.com.height == PaddleHeight
    ensures var o := Step(g, now, draws, keys, f, t);
      && (o.game.user.height == PaddleHeight || o.game.user.height == 2.0 * PaddleHeight)
      && o.game.com.height == PaddleHeight
  {
  }

  /** Expiry is checked before the paddle rebound, so the frame in which a
      power-up runs out plays exactly as if it had already been switched off:
      a hit in that frame uses the base paddle height. */
  lemma ExpiryComesBeforeRebound(g: Game, now: int, draws: Draws, keys: Keys, f: Field, t: Trig)
    requires Playable(g) && DrawsInRange(draws)
    requires g.currentDifficulty.Some?
    requires g.user.height == PaddleHeight || g.user.height == 2.0 * PaddleHeight
    requires g.powerUp.Active? && now - g.powerUp.start > PowerUpDuration
    ensures Step(g, now, draws, keys, f, t) == Step(DeactivatePowerUp(g), now, draws, keys, f, t)
  {
    var g0 := DeactivatePowerUp(g);
    var scored := Score(g, now, draws, f);
    var scored0 := Score(g0, now, draws, f);
    if scored.powerUp == g.powerUp {
      assert scored0 == DeactivatePowerUp(scored);
      FlyIgnoresExpiredPowerUp(scored, now, f, t);
    } else {
      assert scored0 == scored;
    }
  }
}

=== FILE: ping_pong3.dfy ===
/**
  The game step of `js/pingPong3.js`: a 10-pixel ball, an opponent that
  closes 5% of the gap each frame, key-driven player moves, and a power-up
  that enlarges the opponent's paddle whenever the scorer leads by three or more.

  On a player point `update` increments a variable that the file never
  declares. The resulting error ends the frame after the score, the power-up
  check and the ball reset have already happened, and since `render` is never
  reached the next frame is never scheduled. The model returns `Frozen` there.
 */
module PingPong3 {
  import opened Pong

  const BallRadius: real := 10.0
  /** Fraction of the centre-to-ball gap the opponent closes per frame. */
  const ComSpeed: real := 0.05
  /** Lead a scorer needs for a power-up to fire. */
  const UserLeadThreshold: int := 3

  const EnlargeOpponentPaddle: PowerUp := PowerUp("EnlargeOpponentPaddle", "blue")
  const PowerUpTypes: seq<PowerUp> := [EnlargeOpponentPaddle]

  datatype Game = Game(user: Paddle, com: Paddle, ball: Ball, trail: seq<Point>, powerUp: PowerUpState)

  /** Both paddle heights are usable as divisors in the rebound angle. */
  predicate Playable(g: Game) {
    g.user.height != 0.0 && g.com.height != 0.0
  }

  /** The state the script sets up on load, for a canvas of the given size:
      both paddles centred vertically on their sides, the ball in the middle. */
  function InitialGame(f: Field): (g: Game)
    ensures Playable(g) && g.trail == [] && g.powerUp == Inactive
    ensures g.user.height == PaddleHeight && g.com.height == PaddleHeight
    ensures Centre(g.user) == f.height / 2.0 && Centre(g.com) == f.height / 2.0
    ensures g.com.x + g.com.width == f.width
    ensures g.user.score == 0 && g.com.score == 0
    ensures InitialBallSpeed <= g.ball.speed <= MaxBallSpeed
    ensures g.user.x == 0.0
    ensures g.user.width == PaddleWidth && g.com.width == PaddleWidth
    ensures g.ball == Ball(f.width / 2.0, f.height / 2.0, BallRadius,
                           InitialBallSpeed, InitialBallSpeed, InitialBallSpeed)
  {
    var y := f.height / 2.0 - PaddleHeight / 2.0;
    Game(
      Paddle(0.0, y, PaddleWidth, PaddleHeight, 0),
      Paddle(f.width - PaddleWidth, y, PaddleWidth, PaddleHeight, 0),
      Ball(f.width / 2.0, f.height / 2.0, BallRadius, InitialBallSpeed, InitialBallSpeed, InitialBallSpeed),
      [],
      Inactive)
  }

  // ---------------------------------------------------------------------------
  // Power-ups

  /** Start the power-up at `now`; enlarging doubles the opponent's paddle only
      from the base height, so it cannot compound. */
  function ActivatePowerUp(g: Game, p: PowerUp, now: int): (g': Game)
    ensures g'.powerUp == Active(p, now)
    ensures g'.user == g.user && g'.ball == g.ball && g'.trail == g.trail
    ensures g'.com == g.com.(height := g'.com.height)
    ensures g'.com.height != g.com.height <==>
              p.name == EnlargeOpponentPaddle.name && g.com.height == PaddleHeight
    ensures g'.com.height != g.com.height ==> g'.com.height == 2.0 * PaddleHeight
  {
    var com :=
      if p.name == "EnlargeOpponentPaddle" && g.com.height == PaddleHeight
      then g.com.(height := g.com.height * 2.0)
      else g.com;
    g.(powerUp := Active(p, now), com := com)
  }

  /** End the power-up and put the opponent's paddle back to the base height,
      whatever it was. */
  function DeactivatePowerUp(g: Game): (g': Game)
    ensures g'.powerUp == Inactive
    ensures g'.com.height == PaddleHeight
    ensures g'.user == g.user && g'.ball == g.ball && g'.trail == g.trail
    ensures g'.com == g.com.(height := PaddleHeight)
  {
    g.(powerUp := Inactive, com := g.com.(height := PaddleHeight))
  }

  /** Activating again while active never grows the paddle further: two
      activations leave the same game as the later one alone. */
  lemma ActivationIsIdempotent(g: Game, p: PowerUp, earlier: int, now: int)
    ensures ActivatePowerUp(ActivatePowerUp(g, p, earlier), p, now) == ActivatePowerUp(g, p, now)
  {
  }

  /** Deactivation undoes any activation completely. */
  lemma DeactivationUndoesActivation(g: Game, p: PowerUp, now: int)
    ensures DeactivatePowerUp(ActivatePowerUp(g, p, now)) == DeactivatePowerUp(g)
  {
  }

  /** `generateRandomPowerUp`: the table has one entry, so every draw picks it. */
  function GenerateRandomPowerUp(r: real): (p: PowerUp)
    requires IsRandom(r)
    ensures p == EnlargeOpponentPaddle
  {
    PickPowerUp(PowerUpTypes, r)
  }

  /** `checkPowerUpActivation`: a power-up fires exactly when the scorer's lead
      is at least three; otherwise nothing changes. */
  function CheckPowerUpActivation(g: Game, scoreDifference: int, now: int, r: real): (g': Game)
    requires IsRandom(r)
    ensures scoreDifference >= UserLeadThreshold ==>
              g' == ActivatePowerUp(g, EnlargeOpponentPaddle, now)
    ensures scoreDifference < UserLeadThreshold ==> g' == g
  {
    if scoreDifference >= UserLeadThreshold then ActivatePowerUp(g, GenerateRandomPowerUp(r), now) else g
  }

  /** The end-of-frame check: an active power-up survives while at most 5000 ms
      have passed since it started, and is deactivated once strictly more have. */
  function ExpirePowerUp(g: Game, now: int): (g': Game)
    ensures g'.powerUp.Active? <==> g.powerUp.Active? && now - g.powerUp.start <= PowerUpDuration
    ensures g'.powerUp.Active? || g.powerUp.Inactive? ==> g' == g
    ensures g'.powerUp != g.powerUp ==> g' == DeactivatePowerUp(g)
  {
    if g.powerUp.Active? && now - g.powerUp.start > PowerUpDuration then DeactivatePowerUp(g) else g
  }

  // ---------------------------------------------------------------------------
  // Player paddle

  /** Held keys move the paddle by 8, each guarded by its own edge test; the
      `s` test sees the position the `w` move already produced. */
  function MoveUser(user: Paddle, keys: Keys, f: Field): (u: Paddle)
    ensures u == user.(y := u.y)
    ensures !keys.w && !keys.s ==> u == user
    ensures keys.w && !keys.s ==> u.y == (if user.y > 0.0 then user.y - PaddleSpeed else user.y)
    ensures keys.s && !keys.w ==>
              u.y == (if user.y < f.height - user.height then user.y + PaddleSpeed else user.y)
    ensures u.y == user.y || u.y == user.y - PaddleSpeed || u.y == user.y + PaddleSpeed
  {
    var up := if keys.w && user.y > 0.0 then user.y - PaddleSpeed else user.y;
    var down := if keys.s && up < f.height - user.height then up + PaddleSpeed else up;
    user.(y := down)
  }

  /** With both keys held the two moves happen in turn: the `s` test sees the
      position the `w` move produced, so a paddle clear of both edges ends
      where it started. */
  lemma BothKeysMoveInTurn(user: Paddle, f: Field)
    ensures MoveUser(user, Keys(true, true), f) ==
            MoveUser(MoveUser(user, Keys(true, false), f), Keys(false, true), f)
    ensures user.y > 0.0 && user.y - PaddleSpeed < f.height - user.height ==>
              MoveUser(user, Keys(true, true), f) == user
  {
  }

  /** The positions the guarded moves can reach: at most one step past either edge. */
  predicate InPaddleBand(user: Paddle, f: Field) {
    -PaddleSpeed < user.y < f.height - user.height + PaddleSpeed
  }

  /** The guards are not a clamp, but they keep the paddle inside the band
      from one frame to the next; a paddle at or past an edge never moves
      further out. */
  lemma MoveUserStaysInBand(user: Paddle, keys: Keys, f: Field)
    requires InPaddleBand(user, f)
    ensures InPaddleBand(MoveUser(user, keys, f), f)
    ensures user.y <= 0.0 ==> MoveUser(user, keys, f).y >= user.y
    ensures user.y >= f.height - user.height ==> MoveUser(user, keys, f).y <= user.y
  {
  }

  // ---------------------------------------------------------------------------
  // The frame

  /** Everything `update` does after the scoring check: flight, trail, opponent
      tracking, wall bounce, player moves, paddle rebound, power-up expiry. */
  function Advance(g: Game, now: int, keys: Keys, f: Field, t: Trig): (g': Game)
    requires Playable(g)
    ensures Playable(g')
    ensures g'.user.score == g.user.score && g'.com.score == g.com.score
    ensures g'.user.height == g.user.height
    ensures g'.com.height == g.com.height || g'.com.height == PaddleHeight
    ensures InitialBallSpeed <= g.ball.speed <= MaxBallSpeed ==>
              g.ball.speed <= g'.ball.speed <= MaxBallSpeed
  {
    var moved := Integrate(g.ball);
    var trail := PushTrail(g.trail, Point(moved.x, moved.y));
    var com := TrackOpponent(g.com, moved.y, ComSpeed);
    var bounced := BounceWalls(moved, f);
    var user := MoveUser(g.user, keys, f);
    var ball := Rebound(bounced, user, com, f, t);
    ExpirePowerUp(Game(user, com, ball, trail, g.powerUp), now)
  }

  /** The ball flies one frame and the trail records where it got to; the
      opponent then tracks that new position, and the held keys move the
      player. */
  lemma AdvanceFliesThenTracks(g: Game, now: int, keys: Keys, f: Field, t: Trig)
    requires Playable(g)
    ensures var g' := Advance(g, now, keys, f, t);
      && g'.ball.x - g.ball.x == g.ball.velocityX && g'.ball.y - g.ball.y == g.ball.velocityY
      && g'.trail == PushTrail(g.trail, Point(g'.ball.x, g'.ball.y))
      && g'.com == g.com.(y := g'.com.y, height := g'.com.height)
      && g'.com.(height := g.com.height) == TrackOpponent(g.com, g'.ball.y, ComSpeed)
      && Centre(g'.com.(height := g.com.height)) - g'.ball.y == (1.0 - ComSpeed) * (Centre(g.com) - g'.ball.y)
      && g'.user == MoveUser(g.user, keys, f)
  {
  }

  /** The power-up expiry comes last: the power-up survives exactly while at
      most 5000 ms have passed, and only an expiry changes the opponent's
      height, back to 120. */
  lemma AdvanceExpiresLast(g: Game, now: int, keys: Keys, f: Field, t: Trig)
    requires Playable(g)
    ensures var g' := Advance(g, now, keys, f, t);
      && (g'.powerUp.Active? <==> g.powerUp.Active? && now - g.powerUp.start <= PowerUpDuration)
      && (g'.powerUp.Active? ==> g'.powerUp == g.powerUp)
      && g'.com.height == (if g'.powerUp != g.powerUp then PaddleHeight else g.com.height)
  {
  }

  /** The rebound sees the ball after flight and wall bounce, the player after
      the key moves, and the tracked opponent as it was before expiry: without
      a hit the ball keeps the bounced velocity, with one it is deflected off
      the paddle of its half. */
  lemma AdvanceRebounds(g: Game, now: int, keys: Keys, f: Field, t: Trig)
    requires Playable(g)
    ensures var g' := Advance(g, now, keys, f, t);
      var bounced := BounceWalls(Integrate(g.ball), f);
      var player := if OnLeftHalf(bounced, f) then g'.user else g'.com.(height := g.com.height);
      && player.height != 0.0
      && (!Collides(bounced, player) ==> g'.ball == bounced)
      && (Collides(bounced, player) ==>
            g'.ball == Deflect(bounced, player, if OnLeftHalf(bounced, f) then 1.0 else -1.0, t))
  {
  }

  /** After a point: the ball goes back to the centre line at the initial
      speed, heading the other way, and the trail is emptied. */
  function Restart(g: Game, f: Field, r: real): (g': Game)
    ensures g' == g.(ball := g'.ball, trail := [])
    ensures g'.ball == ResetBall(g.ball, f, r)
    ensures g'.ball.x == f.width / 2.0 && g'.ball.speed == InitialBallSpeed
    ensures g'.ball.velocityX == -g.ball.velocityX && g'.ball.velocityY == g.ball.velocityY
  {
    g.(ball := ResetBall(g.ball, f, r), trail := [])
  }

  /** The point branch of `update`: the scorer's score goes up, the power-up
      check is handed the scorer's lead, and the ball is reset. */
  function ScorePoint(g: Game, opponentScores: bool, now: int, draws: Draws, f: Field): (g': Game)
    requires Playable(g) && DrawsInRange(draws)
    ensures Playable(g')
    ensures g'.com.score == (if opponentScores then g.com.score + 1 else g.com.score)
    ensures g'.user.score == (if opponentScores then g.user.score else g.user.score + 1)
    ensures g'.user == g.user.(score := g'.user.score)
    ensures g'.com == g.com.(score := g'.com.score, height := g'.com.height)
    ensures g'.trail == [] && g'.ball == ResetBall(g.ball, f, draws.reset)
    ensures var lead := if opponentScores then g'.com.score - g'.user.score else g'.user.score - g'.com.score;
      && (lead >= UserLeadThreshold ==>
            && g'.powerUp == Active(EnlargeOpponentPaddle, now)
            && g'.com.height == (if g.com.height == PaddleHeight then 2.0 * PaddleHeight else g.com.height))
      && (lead < UserLeadThreshold ==> g'.powerUp == g.powerUp && g'.com.height == g.com.height)
  {
    var scored :=
      if opponentScores then g.(com := g.com.(score := g.com.score + 1))
      else g.(user := g.user.(score := g.user.score + 1));
    var lead :=
      if opponentScores then scored.com.score - scored.user.score
      else scored.user.score - scored.com.score;
    Restart(CheckPowerUpActivation(scored, lead, now, draws.powerUp), f, draws.reset)
  }

  /** One call of `update`. The opponent scores when the ball's left edge is
      past the left wall, otherwise the player scores when its right edge is
      past the right wall; a player point leaves the game `Frozen`. */
  function Step(g: Game, now: int, draws: Draws, keys: Keys, f: Field, t: Trig): (o: Outcome<Game>)
    requires Playable(g) && DrawsInRange(draws)
    ensures Playable(o.game)
    ensures o.Frozen? <==> !(g.ball.x - g.ball.radius < 0.0) && g.ball.x + g.ball.radius > f.width
  {
    if g.ball.x - g.ball.radius < 0.0 then
      Running(Advance(ScorePoint(g, true, now, draws, f), now, keys, f, t))
    else if g.ball.x + g.ball.radius > f.width then
      // The undeclared counter is incremented here: the frame ends with an error.
      Frozen(ScorePoint(g, false, now, draws, f))
    else
      Running(Advance(g, now, keys, f, t))
  }

  /** The animation loop: one `Step` per frame until a frame throws. */
  function Run(o: Outcome<Game>, frames: seq<Frame>, t: Trig): Outcome<Game>
    requires Playable(o.game)
    requires forall i :: 0 <= i < |frames| ==> DrawsInRange(frames[i].draws)
    decreases |frames|
  {
    if |frames| == 0 || o.Frozen? then o
    else
      var fr := frames[0];
      Run(Step(o.game, fr.now, fr.draws, fr.keys, fr.field, t), frames[1..], t)
  }

  // ---------------------------------------------------------------------------
  // Properties of a frame

  /** The left wall is checked first, so at most one side scores in a frame,
      and the scoring side's counter rises by exactly one. */
  lemma StepScoresAtMostOnce(g: Game, now: int, draws: Draws, keys: Keys, f: Field, t: Trig)
    requires Playable(g) && DrawsInRange(draws)
    ensures var o := Step(g, now, draws, keys, f, t);
      var comScores := g.ball.x - g.ball.radius < 0.0;
      var userScores := !comScores && g.ball.x + g.ball.radius > f.width;
      && o.game.com.score == (if comScores then g.com.score + 1 else g.com.score)
      && o.game.user.score == (if userScores then g.user.score + 1 else g.user.score)
  {
  }

  /** After a point the ball restarts from the centre line with the initial
      speed, reversed horizontal direction and an empty trail (the frozen
      state is where the player's point leaves it). */
  lemma PointResetsBall(g: Game, now: int, draws: Draws, keys: Keys, f: Field, t: Trig)
    requires Playable(g) && DrawsInRange(draws)
    requires g.ball.x - g.ball.radius < 0.0 || g.ball.x + g.ball.radius > f.width
    ensures var o := Step(g, now, draws, keys, f, t);
      o.Frozen? ==>
        && o.game.ball.x == f.width / 2.0
        && o.game.ball.speed == InitialBallSpeed
        && o.game.ball.velocityX == -g.ball.velocityX
        && o.game.trail == []
    ensures var o := Step(g, now, draws, keys, f, t);
      o.Running? ==> o.game.trail == [Point(o.game.ball.x, o.game.ball.y)]
  {
    if g.ball.x - g.ball.radius < 0.0 {
      AdvanceFliesThenTracks(ScorePoint(g, true, now, draws, f), now, keys, f, t);
    }
  }

  /** A running frame keeps the trail within seven entries, ends it with the
      ball's new position, and keeps the older entries in order. */
  lemma StepKeepsTrailBounded(g: Game, now: int, draws: Draws, keys: Keys, f: Field, t: Trig)
    requires Playable(g) && DrawsInRange(draws)
    requires |g.trail| <= TrailCapacity
    ensures var o := Step(g, now, draws, keys, f, t);
      && |o.game.trail| <= TrailCapacity
      && (o.Running? ==> o.game.trail[|o.game.trail| - 1] == Point(o.game.ball.x, o.game.ball.y))
      && (o.Running? && !(g.ball.x - g.ball.radius < 0.0) ==>
            IsSuffix(o.game.trail, g.trail + [Point(o.game.ball.x, o.game.ball.y)]))
  {
    if g.ball.x - g.ball.radius < 0.0 {
      AdvanceFliesThenTracks(ScorePoint(g, true, now, draws, f), now, keys, f, t);
    } else if !(g.ball.x + g.ball.radius > f.width) {
      AdvanceFliesThenTracks(g, now, keys, f, t);
    }
  }

  /** In every frame that runs on, with or without an opponent point, the
      opponent is moved by the tracker with coefficient 0.05 toward the ball's
      new position (so it closes 5% of the gap, as `TrackOpponent` states),
      starting from the paddle the scoring check left; its height can then
      only be changed by the expiry at the end of the frame. The held keys
      move the player. */
  lemma StepTracksBall(g: Game, now: int, draws: Draws, keys: Keys, f: Field, t: Trig)
    requires Playable(g) && DrawsInRange(draws)
    requires !(!(g.ball.x - g.ball.radius < 0.0) && g.ball.x + g.ball.radius > f.width)
    ensures var o := Step(g, now, draws, keys, f, t);
      var s := if g.ball.x - g.ball.radius < 0.0 then ScorePoint(g, true, now, draws, f) else g;
      && o.Running?
      && o.game.ball.y == s.ball.y + s.ball.velocityY
      && o.game.com.(height := s.com.height) == TrackOpponent(s.com, o.game.ball.y, ComSpeed)
      && o.game.user == MoveUser(g.user, keys, f)
  {
    if g.ball.x - g.ball.radius < 0.0 {
      AdvanceFliesThenTracks(ScorePoint(g, true, now, draws, f), now, keys, f, t);
    } else {
      AdvanceFliesThenTracks(g, now, keys, f, t);
    }
  }

  /** A point fires the power-up exactly when the scorer then leads by three
      or more (the opponent's lead on an opponent point, the player's on a
      player point); it enlarges the opponent's paddle from 120 to 240 and is
      still active when the frame ends. Otherwise the power-up changes only by
      the expiry of a running frame. */
  lemma StepFiresPowerUpOnLead(g: Game, now: int, draws: Draws, keys: Keys, f: Field, t: Trig)
    requires Playable(g) && DrawsInRange(draws)
    ensures var o := Step(g, now, draws, keys, f, t);
      var comScores := g.ball.x - g.ball.radius < 0.0;
      var userScores := !comScores && g.ball.x + g.ball.radius > f.width;
      var lead := if comScores then g.com.score + 1 - g.user.score
                  else if userScores then g.user.score + 1 - g.com.score
                  else 0;
      && (lead >= UserLeadThreshold ==>
            && o.game.powerUp == Active(EnlargeOpponentPaddle, now)
            && (g.com.height == PaddleHeight ==> o.game.com.height == 2.0 * PaddleHeight))
      && (lead < UserLeadThreshold && o.Running? ==>
            (o.game.powerUp.Active? <==> g.powerUp.Active? && now - g.powerUp.start <= PowerUpDuration)
            && (o.game.powerUp.Active? ==> o.game.powerUp == g.powerUp))
      && (lead < UserLeadThreshold && o.Frozen? ==> o.game.powerUp == g.powerUp)
  {
    if g.ball.x - g.ball.radius < 0.0 {
      AdvanceExpiresLast(ScorePoint(g, true, now, draws, f), now, keys, f, t);
    } else if !(g.ball.x + g.ball.radius > f.width) {
      AdvanceExpiresLast(g, now, keys, f, t);
    }
  }

  /** The ball's speed stays between the initial speed and the cap, and
      between points it never decreases. */
  lemma StepKeepsSpeedInRange(g: Game, now: int, draws: Draws, keys: Keys, f: Field, t: Trig)
    requires Playable(g) && DrawsInRange(draws)
    requires InitialBallSpeed <= g.ball.speed <= MaxBallSpeed
    ensures var o := Step(g, now, draws, keys, f, t);
      && InitialBallSpeed <= o.game.ball.speed <= MaxBallSpeed
      && (o.Running? && !(g.ball.x - g.ball.radius < 0.0) ==> g.ball.speed <= o.game.ball.speed)
  {
  }

  /** The power-up only ever switches the opponent's paddle between the base
      height and its double, and leaves the player's at the base height. */
  lemma StepKeepsPaddleHeights(g: Game, now: int, draws: Draws, keys: Keys, f: Field, t: Trig)
    requires Playable(g) && DrawsInRange(draws)
    requires g.user.height == PaddleHeight
    requires g.com.height == PaddleHeight || g.com.height == 2.0 * PaddleHeight
    ensures var o := Step(g, now, draws, keys, f, t);
      && o.game.user.height == PaddleHeight
      && (o.game.com.height == PaddleHeight || o.game.com.height == 2.0 * PaddleHeight)
  {
  }

  /** The loop stops for good at the first player point: over any run of
      frames the player's score rises by at most one, and only in a frozen game. */
  lemma {:induction false} FreezesOnFirstPlayerPoint(o: Outcome<Game>, frames: seq<Frame>, t: Trig)
    requires Playable(o.game)
    requires forall i :: 0 <= i < |frames| ==> DrawsInRange(frames[i].draws)
    ensures o.Frozen? ==> Run(o, frames, t) == o
    ensures Run(o, frames, t).game.user.score <= o.game.user.score + 1
    ensures o.Running? && Run(o, frames, t).Running? ==>
              Run(o, frames, t).game.user.score == o.game.user.score
    decreases |frames|
  {
    if |frames| > 0 && o.Running? {
      var fr := frames[0];
      var next := Step(o.game, fr.now, fr.draws, fr.keys, fr.field, t);
      StepScoresAtMostOnce(o.game, fr.now, fr.draws, fr.keys, fr.field, t);
      assert forall i :: 0 <= i < |frames[1..]| ==> DrawsInRange(frames[1..][i].draws) by {
        forall i | 0 <= i < |frames[1..]| ensures DrawsInRange(frames[1..][i].draws) {
          assert frames[1..][i] == frames[i + 1];
        }
      }
      FreezesOnFirstPlayerPoint(next, frames[1..], t);
    }
  }

  /** With a ball at x = 795 on an 800-wide field the player scores: the score
      becomes one, the ball is back at x = 400, and the game is frozen. */
  lemma FirstPlayerPointScenario(g: Game, now: int, draws: Draws, keys: Keys, t: Trig)
    requires Playable(g) && DrawsInRange(draws)
    requires g.ball == Ball(795.0, 300.0, BallRadius, 5.0, 5.0, InitialBallSpeed)
    requires g.user.score == 0
    ensures var o := Step(g, now, draws, keys, Field(800.0, 600.0), t);
      o.Frozen? && o.game.user.score == 1 && o.game.ball.x == 400.0
  {
  }
}

=== FILE: pong.dfy ===
/**
  The part of the per-frame game step that both Pong variants share: the
  entities, the constants, the ball/paddle overlap test, the ball reset after
  a point, the bounded trail, the proportional opponent tracker, the wall
  bounce, the paddle rebound with its speed ramp, and the random choice of a
  power-up. The copies differ in two places only: the tracker's coefficient
  (a constant in one variant, the selected difficulty's in the other, hence a
  parameter here) and a sound played on a paddle hit in one variant, which
  has no effect on the state.

  Positions and speeds are `real`; the outside world (the clock, the random
  source, the keyboard, the canvas size, `Math.cos` and `Math.sin`) comes in
  as parameters.
 */
module Pong {

  const PaddleWidth: real := 18.0
  const PaddleHeight: real := 120.0
  const PaddleSpeed: real := 8.0
  const InitialBallSpeed: real := 5.0
  const MaxBallSpeed: real := 40.0
  const SpeedIncrement: real := 0.2
  /** How many past ball positions the trail keeps. */
  const TrailCapacity: nat := 7
  /** Milliseconds a power-up stays active. */
  const PowerUpDuration: int := 5000
  /** `Math.PI`: the shortest decimal that reads back as the double nearest
      to pi (the double itself is 3.14159265358979311599...). */
  const Pi: real := 3.141592653589793

  datatype Option<T> = None | Some(value: T)

  datatype Paddle = Paddle(x: real, y: real, width: real, height: real, score: nat)

  datatype Ball = Ball(x: real, y: real, radius: real, velocityX: real, velocityY: real, speed: real)

  datatype Point = Point(x: real, y: real)

  /** The canvas size as read at the start of a frame. */
  datatype Field = Field(width: real, height: real)

  /** Whether the `w` and `s` keys are currently held. */
  datatype Keys = Keys(w: bool, s: bool)

  /** `Math.cos` and `Math.sin`, which the model does not interpret. */
  datatype Trig = Trig(cos: real -> real, sin: real -> real)

  /** The two `Math.random()` values a frame may consume, named by their consumer. */
  datatype Draws = Draws(reset: real, powerUp: real)

  /** Everything a frame reads from outside the game: `Date.now()`, the random
      draws, the held keys and the current canvas size. */
  datatype Frame = Frame(now: int, draws: Draws, keys: Keys, field: Field)

  datatype PowerUp = PowerUp(name: string, color: string)

  /** `powerUpActive`, `powerUpStart` and `activePowerUp` taken together. */
  datatype PowerUpState = Inactive | Active(kind: PowerUp, start: int)

  /** What a frame leaves behind: the loop keeps going, or `update` threw and
      the animation loop is never scheduled again. */
  datatype Outcome<G> = Running(game: G) | Frozen(game: G)

  predicate IsRandom(r: real) {
    0.0 <= r < 1.0
  }

  predicate DrawsInRange(d: Draws) {
    IsRandom(d.reset) && IsRandom(d.powerUp)
  }

  function Centre(p: Paddle): real {
    p.y + p.height / 2.0
  }

  // ---------------------------------------------------------------------------
  // Collision

  /** The ball's bounding square and the paddle's rectangle overlap; all four
      comparisons are strict, so touching edges is no hit. */
  predicate Collides(b: Ball, p: Paddle) {
    && b.x + b.radius > p.x
    && b.x - b.radius < p.x + p.width
    && b.y + b.radius > p.y
    && b.y - b.radius < p.y + p.height
  }

  /** A point strictly inside the ball's bounding square. */
  predicate InBallBox(q: Point, b: Ball) {
    && b.x - b.radius < q.x < b.x + b.radius
    && b.y - b.radius < q.y < b.y + b.radius
  }

  /** A point strictly inside the paddle's rectangle. */
  predicate InPaddleBox(q: Point, p: Paddle) {
    && p.x < q.x < p.x + p.width
    && p.y < q.y < p.y + p.height
  }

  /** The collision test is exactly "the two open boxes share a point". */
  lemma CollidesIffBoxesOverlap(b: Ball, p: Paddle)
    requires b.radius > 0.0 && p.width > 0.0 && p.height > 0.0
    ensures Collides(b, p) <==> exists q :: InBallBox(q, b) && InPaddleBox(q, p)
  {
    if Collides(b, p) {
      var loX := if b.x - b.radius < p.x then p.x else b.x - b.radius;
      var hiX := if b.x + b.radius < p.x + p.width then b.x + b.radius else p.x + p.width;
      var loY := if b.y - b.radius < p.y then p.y else b.y - b.radius;
      var hiY := if b.y + b.radius < p.y + p.height then b.y + b.radius else p.y + p.height;
      var q := Point((loX + hiX) / 2.0, (loY + hiY) / 2.0);
      assert InBallBox(q, b) && InPaddleBox(q, p);
    }
  }

  /** A ball whose edge only touches a paddle's edge does not collide with it. */
  lemma EdgeContactIsNoHit(b: Ball, p: Paddle)
    requires || b.x + b.radius == p.x
             || b.x - b.radius == p.x + p.width
             || b.y + b.radius == p.y
             || b.y - b.radius == p.y + p.height
    ensures !Collides(b, p)
  {
  }

  // ---------------------------------------------------------------------------
  // Reset after a point

  /** `resetBall` on the ball itself (the caller also empties the trail). */
  function ResetBall(b: Ball, f: Field, r: real): (b': Ball)
    ensures b'.x == f.width / 2.0
    ensures b'.velocityX == -b.velocityX && b'.velocityY == b.velocityY
    ensures b'.speed == InitialBallSpeed && b'.radius == b.radius
    ensures IsRandom(r) && f.height > 2.0 * b.radius ==> b.radius <= b'.y < f.height - b.radius
    ensures b' == b.(x := b'.x, y := b'.y, velocityX := b'.velocityX, speed := b'.speed)
  {
    var span := f.height - b.radius * 2.0;
    var b' := b.(x := f.width / 2.0,
                 y := r * span + b.radius,
                 velocityX := -b.velocityX,
                 speed := InitialBallSpeed);
    if IsRandom(r) && span > 0.0 then ScaleBelow(r, span); b' else b'
  }

  /** The reset height is an affine map of the draw: a draw of 0 puts the
      ball's top on the top wall, and each unit of the draw moves it down by
      the free span `height - 2 * radius`, so a larger draw puts it lower. */
  lemma ResetBallIsAffine(b: Ball, f: Field, r1: real, r2: real)
    ensures ResetBall(b, f, 0.0).y == b.radius
    ensures ResetBall(b, f, r1).y - ResetBall(b, f, r2).y == (r1 - r2) * (f.height - 2.0 * b.radius)
    ensures f.height > 2.0 * b.radius && r1 < r2 ==> ResetBall(b, f, r1).y < ResetBall(b, f, r2).y
  {
    var span := f.height - b.radius * 2.0;
    assert ResetBall(b, f, r1).y == r1 * span + b.radius;
    assert ResetBall(b, f, r2).y == r2 * span + b.radius;
    assert f.height > 2.0 * b.radius ==> span > 0.0;
    ScaleDifference(r1, r2, span);
  }

  /** Scaling distributes over a difference and keeps a strict order. */
  lemma ScaleDifference(r1: real, r2: real, span: real)
    ensures r1 * span - r2 * span == (r1 - r2) * span
    ensures span > 0.0 && r1 < r2 ==> r1 * span < r2 * span
  {
    if span > 0.0 && r1 < r2 {
      assert (r2 - r1) * span > 0.0;
    }
  }

  /** Every height whose ball lies inside the field, `[radius, height - radius)`,
      is reached by a draw in [0, 1). */
  lemma ResetBallReachesEveryHeight(b: Ball, f: Field, y: real)
    requires f.height > 2.0 * b.radius
    requires b.radius <= y < f.height - b.radius
    ensures var r := (y - b.radius) / (f.height - 2.0 * b.radius);
      IsRandom(r) && ResetBall(b, f, r).y == y
  {
    var span := f.height - 2.0 * b.radius;
    var r := (y - b.radius) / span;
    assert r * span == y - b.radius;
    FractionBelowOne(y - b.radius, span);
  }

  /** A part of a positive whole divided by the whole is a draw in [0, 1). */
  lemma FractionBelowOne(x: real, d: real)
    requires 0.0 <= x < d
    ensures IsRandom(x / d)
  {
    DivideDifference(d, d - x, d);
    assert d / d == 1.0;
    assert (d - x) / d > 0.0;
  }

  // ---------------------------------------------------------------------------
  // Trail

  /** `t` is what is left of `s` after dropping some of its oldest entries. */
  predicate IsSuffix<T(==)>(t: seq<T>, s: seq<T>) {
    |t| <= |s| && t == s[|s| - |t|..]
  }

  /** Append the new position and drop the oldest one once there are more than seven. */
  function PushTrail(trail: seq<Point>, p: Point): (t: seq<Point>)
    ensures |t| > 0 && t[|t| - 1] == p
    ensures IsSuffix(t, trail + [p])
    ensures |trail| < TrailCapacity ==> t == trail + [p]
    ensures |trail| >= TrailCapacity ==> |t| == |trail|
    ensures |trail| <= TrailCapacity ==> |t| <= TrailCapacity
  {
    var pushed := trail + [p];
    if |pushed| > TrailCapacity then pushed[1..] else pushed
  }

  /** The trail built by pushing `ps` one by one onto an empty trail. */
  function PushAll(ps: seq<Point>): seq<Point>
  {
    if |ps| == 0 then [] else PushTrail(PushAll(ps[..|ps| - 1]), ps[|ps| - 1])
  }

  /** The last `min(|ps|, 7)` elements of `ps`, oldest first. */
  function Recent(ps: seq<Point>): seq<Point> {
    if |ps| <= TrailCapacity then ps else ps[|ps| - TrailCapacity..]
  }

  /** The trail is a first-in-first-out window: after any run of pushes it holds
      exactly the last seven positions pushed, in the order they were pushed. */
  lemma {:induction false} TrailIsRecentWindow(ps: seq<Point>)
    ensures PushAll(ps) == Recent(ps)
  {
    if |ps| > 0 {
      var init, p := ps[..|ps| - 1], ps[|ps| - 1];
      assert ps == init + [p];
      TrailIsRecentWindow(init);
      PushKeepsRecent(init, p);
    }
  }

  /** One push onto the window of `ps` gives the window of `ps + [p]`. */
  lemma PushKeepsRecent(ps: seq<Point>, p: Point)
    ensures PushTrail(Recent(ps), p) == Recent(ps + [p])
  {
  }

  // ---------------------------------------------------------------------------
  // Opponent tracker

  /** Move the paddle a fraction `k` of the way from its centre to the ball. */
  function TrackOpponent(com: Paddle, ballY: real, k: real): (c: Paddle)
    ensures c == com.(y := c.y)
    ensures Centre(c) - ballY == (1.0 - k) * (Centre(com) - ballY)
  {
    var gap := Centre(com) - ballY;
    assert gap - gap * k == (1.0 - k) * gap;
    com.(y := com.y + (ballY - Centre(com)) * k)
  }

  /** The tracker reads only the paddle's position and height, never its score. */
  lemma TrackIgnoresScore(com: Paddle, ballY: real, k: real, score: nat)
    ensures TrackOpponent(com.(score := score), ballY, k) == TrackOpponent(com, ballY, k).(score := score)
  {
  }

  /** With a coefficient strictly between 0 and 1 the paddle's centre moves
      toward the ball and stops strictly short of it: it never overshoots. */
  lemma TrackingNeverOvershoots(com: Paddle, ballY: real, k: real)
    requires 0.0 < k < 1.0
    ensures Centre(com) < ballY ==> Centre(com) < Centre(TrackOpponent(com, ballY, k)) < ballY
    ensures ballY < Centre(com) ==> ballY < Centre(TrackOpponent(com, ballY, k)) < Centre(com)
    ensures Centre(com) == ballY ==> TrackOpponent(com, ballY, k) == com
  {
    GapShrinks(k, Centre(com) - ballY, Centre(TrackOpponent(com, ballY, k)) - ballY);
  }

  /** A gap scaled by `1 - k`, for `k` in (0, 1), moves strictly toward zero
      without crossing it. */
  lemma GapShrinks(k: real, gap: real, gap': real)
    requires 0.0 < k < 1.0
    requires gap' == (1.0 - k) * gap
    ensures gap < 0.0 ==> gap < gap' < 0.0
    ensures gap > 0.0 ==> 0.0 < gap' < gap
    ensures gap == 0.0 ==> gap' == 0.0
  {
    if gap < 0.0 {
      ScaleBelow(1.0 - k, -gap);
      assert (1.0 - k) * (-gap) == -gap';
    } else if gap > 0.0 {
      ScaleBelow(1.0 - k, gap);
    }
  }

  /** Scaling a positive number by a factor in [0, 1) makes it smaller, and
      keeps it positive when the factor is. */
  lemma ScaleBelow(m: real, x: real)
    requires x > 0.0 && 0.0 <= m < 1.0
    ensures 0.0 <= m * x < x
    ensures m > 0.0 ==> m * x > 0.0
  {
  }

  // ---------------------------------------------------------------------------
  // Ball flight and walls

  /** One frame of free flight: the ball is displaced by its velocity, and
      nothing else about it changes. */
  function Integrate(b: Ball): (b': Ball)
    ensures b'.x - b.x == b.velocityX && b'.y - b.y == b.velocityY
    ensures b' == b.(x := b'.x, y := b'.y)
  {
    b.(x := b.x + b.velocityX, y := b.y + b.velocityY)
  }

  /** Invert the vertical velocity when the ball pokes through the top or the
      bottom edge; the position itself is never corrected. */
  function BounceWalls(b: Ball, f: Field): (b': Ball)
    ensures b' == b.(velocityY := b'.velocityY)
    ensures b'.velocityY == b.velocityY || b'.velocityY == -b.velocityY
    ensures b'.velocityY != b.velocityY ==> b.y - b.radius < 0.0 || b.y + b.radius > f.height
    ensures b.y - b.radius < 0.0 || b.y + b.radius > f.height ==> b'.velocityY == -b.velocityY
  {
    if b.y - b.radius < 0.0 || b.y + b.radius > f.height then b.(velocityY := -b.velocityY) else b
  }

  /** A ball moving out through the top or the bottom is turned back into the
      field; since the position is not corrected, a ball still outside on the
      next check is turned around again, so two checks in one spot cancel. */
  lemma BounceTurnsBallBack(b: Ball, f: Field)
    ensures b.y - b.radius < 0.0 && b.velocityY < 0.0 ==> BounceWalls(b, f).velocityY > 0.0
    ensures b.y + b.radius > f.height && b.velocityY > 0.0 ==> BounceWalls(b, f).velocityY < 0.0
    ensures BounceWalls(BounceWalls(b, f), f) == b
  {
  }

  // ---------------------------------------------------------------------------
  // Paddle rebound

  /** Raise the speed by 0.2 and cap it at 40. */
  function RampSpeed(speed: real): (s: real)
    ensures s <= MaxBallSpeed
    ensures speed <= MaxBallSpeed ==> speed <= s
    ensures speed + SpeedIncrement <= MaxBallSpeed ==> s == speed + SpeedIncrement
    ensures speed + SpeedIncrement > MaxBallSpeed ==> s == MaxBallSpeed
  {
    var raised := speed + SpeedIncrement;
    if raised > MaxBallSpeed then MaxBallSpeed else raised
  }

  /** The ball's right edge is on the left half, so the user's paddle is the
      one it can hit. */
  predicate OnLeftHalf(b: Ball, f: Field) {
    b.x + b.radius < f.width / 2.0
  }

  /** The rebound angle: 0 at the paddle's centre, pi/4 at its edges. */
  function HitAngle(b: Ball, p: Paddle): real
    requires p.height != 0.0
  {
    (Pi / 4.0) * ((b.y - Centre(p)) / (p.height / 2.0))
  }

  /** A hit at the paddle's centre goes straight back; below the centre the
      ball leaves downward and above it upward, at most pi/4 off the
      horizontal while the ball's centre is level with the paddle. */
  lemma HitAngleFollowsHitPoint(b: Ball, p: Paddle)
    requires p.height != 0.0
    ensures b.y == Centre(p) ==> HitAngle(b, p) == 0.0
    ensures p.height > 0.0 ==>
              && (HitAngle(b, p) > 0.0 <==> b.y > Centre(p))
              && (HitAngle(b, p) < 0.0 <==> b.y < Centre(p))
    ensures p.height > 0.0 && p.y <= b.y <= p.y + p.height ==> -Pi / 4.0 <= HitAngle(b, p) <= Pi / 4.0
    ensures b.y == p.y ==> HitAngle(b, p) == -Pi / 4.0
    ensures b.y == p.y + p.height ==> HitAngle(b, p) == Pi / 4.0
  {
    if p.height > 0.0 {
      UnitRatio(b.y - Centre(p), p.height / 2.0);
    }
  }

  /** The angle is linear in the hit point: two hits on the same paddle differ
      in angle by pi/2 times their vertical distance over the paddle's height. */
  lemma HitAngleIsLinear(b1: Ball, b2: Ball, p: Paddle)
    requires p.height != 0.0
    ensures HitAngle(b1, p) - HitAngle(b2, p) == (Pi / 2.0) * ((b1.y - b2.y) / p.height)
  {
    var half := p.height / 2.0;
    DivideDifference(b1.y - Centre(p), b2.y - Centre(p), half);
    assert (b1.y - b2.y) / half == 2.0 * ((b1.y - b2.y) / p.height);
  }

  /** Division by a common nonzero divisor distributes over a difference. */
  lemma DivideDifference(x: real, y: real, d: real)
    requires d != 0.0
    ensures x / d - y / d == (x - y) / d
  {
  }

  /** Dividing by a positive half-length keeps the sign and maps the range
      `[-half, half]` onto `[-1, 1]`. */
  lemma UnitRatio(x: real, half: real)
    requires half > 0.0
    ensures (x / half > 0.0 <==> x > 0.0) && (x / half < 0.0 <==> x < 0.0)
    ensures -half <= x <= half ==> -1.0 <= x / half <= 1.0
  {
  }

  /** New velocity from the pre-ramp speed and the hit angle, then the speed ramp. */
  function Deflect(b: Ball, p: Paddle, direction: real, t: Trig): (b': Ball)
    requires p.height != 0.0
    ensures b'.x == b.x && b'.y == b.y && b'.radius == b.radius
    ensures b'.velocityX == direction * b.speed * t.cos(HitAngle(b, p))
    ensures b'.velocityY == b.speed * t.sin(HitAngle(b, p))
    ensures b'.speed == RampSpeed(b.speed)
  {
    var angle := HitAngle(b, p);
    b.(velocityX := direction * b.speed * t.cos(angle),
       velocityY := b.speed * t.sin(angle),
       speed := RampSpeed(b.speed))
  }

  /** Pick the paddle on the ball's half and rebound off it if the two collide:
      rightward off the user's paddle, leftward off the opponent's. */
  function Rebound(b: Ball, user: Paddle, com: Paddle, f: Field, t: Trig): (b': Ball)
    requires user.height != 0.0 && com.height != 0.0
    ensures b'.x == b.x && b'.y == b.y && b'.radius == b.radius
    ensures OnLeftHalf(b, f) && Collides(b, user) ==> b' == Deflect(b, user, 1.0, t)
    ensures !OnLeftHalf(b, f) && Collides(b, com) ==> b' == Deflect(b, com, -1.0, t)
    ensures !Collides(b, if OnLeftHalf(b, f) then user else com) ==> b' == b
    ensures InitialBallSpeed <= b.speed <= MaxBallSpeed ==> b.speed <= b'.speed <= MaxBallSpeed
  {
    var player := if OnLeftHalf(b, f) then user else com;
    if Collides(b, player) then
      var direction := if OnLeftHalf(b, f) then 1.0 else -1.0;
      Deflect(b, player, direction, t)
    else
      b
  }

  /** A rebound only redirects the ball: its velocity has the magnitude of the
      speed before the ramp, given cos^2 + sin^2 = 1 at the hit angle. */
  lemma DeflectKeepsMagnitude(b: Ball, p: Paddle, direction: real, t: Trig)
    requires p.height != 0.0
    requires direction == 1.0 || direction == -1.0
    requires var a := HitAngle(b, p); t.cos(a) * t.cos(a) + t.sin(a) * t.sin(a) == 1.0
    ensures var b' := Deflect(b, p, direction, t);
      b'.velocityX * b'.velocityX + b'.velocityY * b'.velocityY == b.speed * b.speed
  {
  }

  // ---------------------------------------------------------------------------
  // Random power-up choice

  /** `Math.floor(r * n)` for a random `r`. */
  function RandomIndex(r: real, n: nat): (i: nat)
    requires IsRandom(r) && n > 0
    ensures i < n
  {
    ScaleBelow(r, n as real);
    (r * (n as real)).Floor
  }

  /** `generateRandomPowerUp` over a given table. */
  function PickPowerUp(types: seq<PowerUp>, r: real): (p: PowerUp)
    requires IsRandom(r) && |types| > 0
    ensures p in types
  {
    types[RandomIndex(r, |types|)]
  }
}
